=== FILE: README.md ===
# Concentration — a Dafny model of the memory-game engine

This project models the core of a single-player "Concentration" card game.
It covers two layers:

- **The engine (`MemoryGame`).** It holds the cards, the score and the
  `alreadySeen` log of mismatched cards. It handles the `choose` intent:
  a no-op guard, a +2 match and a −1 repeat-mismatch penalty. It also
  handles `shuffle`, and every card keeps bonus-time bookkeeping driven by
  the `isFaceUp`/`isMatched` observers.
- **The session (`EmojiMemoryGame`).** It builds a fixed catalog of six
  emoji themes and picks one at random. It builds an engine over that
  theme, and forwards `choose`/`shuffle`. On `refresh` it draws a new theme
  from the unchanged catalog and builds a new engine. The catalog, including
  the order of each pool, is shuffled once at `init`, so a theme deals the
  same first `numPairs` emojis after every refresh.

Everything is a value: a `Game<T>` is a datatype and each intent is a pure
transition function.

- Wall-clock readings (`Date()`) become an explicit `now: real` argument,
  one per call.
- Random reorderings (`cards.shuffle()`, `emojis.shuffled()`) become
  `Seqs.Permute(s, rolls)`. It takes the element at `rolls[0] % |s|`
  first, then reorders the rest with the remaining draws.
- Every `rolls` yields a permutation, and every permutation is produced by
  some `rolls` (`Seqs.PermuteReachesEveryOrder`). The model therefore
  neither adds nor drops a possible ordering.
- The theme draw `Int.random(in: 0..<themes.count)` is the argument `pick`.
  Its precondition `pick < |themes|` is the range the random generator
  promises.

Files:

| file | module | models |
|---|---|---|
| `wrappers.dfy` | `Wrappers` | Swift optionals (`Option`) |
| `seqs.dfy` | `Seqs` | `Array.oneAndOnly`, counting, distinctness, the random reordering |
| `cards.dfy` | `CardState` | `MemoryGame.Card`: observers, bonus-time values, start/stop of the clock |
| `memory_game.dfy` | `MemoryGame` | `init`, `choose`, `shuffle`, the one-and-only face-up getter and setter |
| `game_properties.dfy` | `GameProperties` | branch-by-branch laws of `choose`; the invariant kept over any play |
| `emoji_memory_game.dfy` | `EmojiMemoryGame` | theme catalog, `createMemoryGame`, `init`, `refresh`, forwarding intents |
| `scenario.dfy` | `SeenLogScenario` | two worked plays showing how `alreadySeen` compares cards |

## Behaviour of the code worth knowing

- **Penalty size.** The mismatch penalty is at most 1 per call. The two
  `contains` checks are joined by `||` (MemoryGame.swift line 49), so a
  call never loses 2 points.
- **Cards stay face up after a comparison.** The chosen card is turned up
  directly (line 55), so the previously face-up card is not turned down.
  Both compared cards, matched or not, stay face up until the next
  `choose` that finds no lone face-up card. That call turns every other
  card down through the setter (line 57). As a result, up to two cards are
  face up between calls.
- **The getter counts matched cards.** The one-and-only face-up getter
  counts every face-up card, matched ones included (line 16).
- **Negative pair counts trap.** A negative pair count makes the range
  `0..<n` trap at runtime. It does not produce an empty game, so `Init`
  requires `n >= 0`.
- **`alreadySeen` compares whole snapshots.** The check uses the
  synthesized `Equatable` of `Card`, which compares every stored field,
  including `lastFaceUpDate` and `pastFaceUpTime`. A card seen in an
  earlier mismatch is found again only if its timing fields have not moved
  and it is compared in the same role. The lone face-up card is logged face
  up; the chosen card is logged face down, before it is turned up. So a
  card logged as the chosen card is not found when it is later the lone
  face-up card (`SeenLogScenario.SpentCardNotFoundInOtherRole`). A repeat
  in the same role is found in two cases:
  - The clock stood still. `SeenLogScenario.RepeatMismatchPenalisedOnlyWithFrozenClock`
    exhibits a play in which the repeat mismatch costs a point exactly when
    no time passed.
  - The card has used up its 6-unit bonus window. Turning it up then starts
    no clock, so its timing fields stop changing
    (`CardState.SpentCardFlipsWithoutTiming`). Every later mismatch in
    which it is again the chosen card is penalised, whatever the times
    (`SeenLogScenario.SpentCardRepeatMismatchPenalised`).

## Model

| member | source | states |
|---|---|---|
| `Seqs.OneAndOnly` | Concentration/Concentration/MemoryGame.swift:140-147 | yields an element iff the array has exactly one, and then that element |
| `Seqs.Permute` | Concentration/Concentration/MemoryGame.swift:34 | the random reordering keeps the length and the multiset of cards |
| `Seqs.PermuteReachesEveryOrder` | Concentration/Concentration/MemoryGame.swift:62-64 | every reordering of the cards is produced by some sequence of random draws |
| `Seqs.PermuteWithoutDraws` | Concentration/Concentration/MemoryGame.swift:34 | without draws the reordering is the identity |
| `Seqs.PermutePreservesDistinct` | Concentration/Concentration/EmojiMemoryGame.swift:26-31 | `shuffled()` of a pool of pairwise-different emojis is still pairwise different |
| `Seqs.CountPermutation` | Concentration/Concentration/MemoryGame.swift:62-64 | how many cards satisfy a property does not depend on their order |
| `CardState.NewCard` | Concentration/Concentration/MemoryGame.swift:67-101 | a new card is face down, unmatched, has a bonus limit of 6, no running clock and no past face-up time |
| `CardState.FaceUpTime` | Concentration/Concentration/MemoryGame.swift:90-96 | with no running clock it is the past face-up time; with a clock started no later than `now` it is at least the past face-up time |
| `CardState.FaceUpTimeRunsWithClock` | Concentration/Concentration/MemoryGame.swift:90-96 | while a clock runs, the face-up time grows by exactly the time elapsed between any two readings |
| `CardState.BonusTimeRemaining` | Concentration/Concentration/MemoryGame.swift:104-106 | never negative; positive iff the face-up time is below the limit; at most the limit when face-up time is not negative |
| `CardState.BonusRemaining` | Concentration/Concentration/MemoryGame.swift:109-111 | in [0,1] when face-up time is not negative; 0 when the limit is not positive; positive iff the limit is positive and not yet reached |
| `CardState.HasEarnedBonus` | Concentration/Concentration/MemoryGame.swift:114-116 | true iff the card is matched and its face-up time is below the limit |
| `CardState.IsConsumingBonusTime` | Concentration/Concentration/MemoryGame.swift:118-120 | true iff face up, unmatched and its face-up time is below the limit |
| `CardState.StartUsingBonusTime` | Concentration/Concentration/MemoryGame.swift:123-127 | records `now` only when the card is consuming bonus time and no clock runs; nothing else changes, and the face-up time at `now` is unchanged |
| `CardState.StopUsingBonusTime` | Concentration/Concentration/MemoryGame.swift:130-133 | clears the clock and freezes the face-up time reached at `now` for every later reading |
| `CardState.SetFaceUp` | Concentration/Concentration/MemoryGame.swift:68-76 | assigns `isFaceUp` and runs the observer; match state, content, id and limit are kept; turning up starts the clock at `now` exactly when the upturned card is consuming bonus time and no clock runs, and keeps the past face-up time; turning down always stops the clock; face-up time at `now` is unchanged |
| `CardState.SpentCardFlipsWithoutTiming` | Concentration/Concentration/MemoryGame.swift:68-76 | a card that has used up its bonus window and has no running clock changes only `isFaceUp` when flipped either way |
| `CardState.SetMatched` | Concentration/Concentration/MemoryGame.swift:77-81 | assigns `isMatched` and always stops the clock, freezing the face-up time |
| `CardState.SettersKeepTimerOnlyWhileUnmatchedFaceUp` | Concentration/Concentration/MemoryGame.swift:68-133 | both setters keep "a clock runs only on a face-up, unmatched card" |
| `CardState.ClockConsistentBounds` | Concentration/Concentration/MemoryGame.swift:90-111 | with a clock that does not run backwards, face-up time is not negative, the bonus fraction lies in [0,1], and both setters keep the readings consistent |
| `CardState.BonusRemainingDecays` | Concentration/Concentration/MemoryGame.swift:90-111 | as time advances, the remaining bonus time and fraction never grow |
| `CardState.FreshCardStartsFullBonus` | Concentration/Concentration/MemoryGame.swift:88-127 | a fresh card turned up at `now` starts its clock at `now` with a full bonus that then runs down linearly over 6 units |
| `MemoryGame.Pairs` | Concentration/Concentration/MemoryGame.swift:29-33 | 2n cards; position i holds a fresh card with id i and content `createCardContent(i / 2)` |
| `MemoryGame.Init` | Concentration/Concentration/MemoryGame.swift:27-35 | 2n fresh cards, score 0, empty log; ids are exactly 0..2n−1, one per card; ids 2p and 2p+1 show content(p) |
| `MemoryGame.FirstIndex` | Concentration/Concentration/MemoryGame.swift:39 | finds the first card with the id, or reports that no card has it |
| `MemoryGame.FaceUpIndices` | Concentration/Concentration/MemoryGame.swift:16 | exactly the face-up positions, matched ones included, in increasing order |
| `MemoryGame.IndexOfTheOneAndOnlyFaceUpCard` | Concentration/Concentration/MemoryGame.swift:15-18 | yields i iff card i is face up and no other card is; yields a value iff exactly one card is face up |
| `MemoryGame.SetIndexOfTheOneAndOnlyFaceUpCard` | Concentration/Concentration/MemoryGame.swift:19-21 | afterwards exactly the given position is face up; match state, content, id and bonus limit are kept; each assignment runs the observer: every other card has its clock stopped with the elapsed time folded in, the target starts its clock at `now` exactly when it is consuming bonus time and none runs, and no card's face-up time at `now` changes; face-down cards with no clock are untouched |
| `MemoryGame.Choose` | Concentration/Concentration/MemoryGame.swift:38-60 | keeps every position's id and content; never unmatches a card; changes the score by 0, +2 or −1 only; only appends to the log |
| `MemoryGame.Shuffle` | Concentration/Concentration/MemoryGame.swift:62-64 | the cards are a permutation of the old ones; score and log unchanged |
| `GameProperties.FirstIndexFindsFirst` | Concentration/Concentration/MemoryGame.swift:39 | the lookup returns the first position carrying the id |
| `GameProperties.ChooseIgnoresUnselectable` | Concentration/Concentration/MemoryGame.swift:39-41 | unknown id, face-up card or matched card: the game is returned unchanged |
| `GameProperties.ChooseMatch` | Concentration/Concentration/MemoryGame.swift:43-55 | equal content with the lone face-up card: both matched, both face up, score +2, log unchanged, other cards untouched; the `isMatched` observers stop both clocks and freeze each card's face-up time at its value at `now`, so the chosen card has earned its bonus at every later time iff that frozen time is below its limit |
| `GameProperties.ChooseMismatch` | Concentration/Concentration/MemoryGame.swift:48-55 | score −1 iff either card's current value is already logged, else 0; the log gains the lone face-up card then the chosen one; the chosen card is turned up through the `isFaceUp` observer, which may start its clock; the other card stays as it was |
| `GameProperties.ChooseWithoutLoneFaceUpCard` | Concentration/Concentration/MemoryGame.swift:56-58 | without a lone face-up card, `choose` is exactly the one-and-only face-up setter applied at the chosen position, with its observer effects; the chosen card becomes the only face-up card; score, log and match flags unchanged |
| `GameProperties.InvariantLoneCardIsUnmatched` | Concentration/Concentration/MemoryGame.swift:14-18 | under the invariant, a lone face-up card is unmatched |
| `GameProperties.InitEstablishesInvariant` | Concentration/Concentration/MemoryGame.swift:27-35 | a fresh game satisfies the invariant |
| `GameProperties.ChooseKeepsInvariant` | Concentration/Concentration/MemoryGame.swift:38-60 | `choose` keeps: at most two face up, a lone face-up card unmatched, clocks only on face-up unmatched cards |
| `GameProperties.ShuffleKeepsInvariant` | Concentration/Concentration/MemoryGame.swift:62-64 | `shuffle` keeps the same invariant |
| `GameProperties.RunKeepsInvariant` | Concentration/Concentration/MemoryGame.swift:38-64 | any sequence of `choose`/`shuffle` intents keeps the invariant |
| `GameProperties.AtMostTwoFaceUpAfterAnyPlay` | Concentration/Concentration/MemoryGame.swift:43-58 | after `init` and any intents, at most two cards are face up, and a lone face-up card is unmatched |
| `GameProperties.ChooseKeepsClockConsistent` | Concentration/Concentration/MemoryGame.swift:90-133 | with a clock that does not run backwards, `choose` keeps every card's readings consistent, so every bonus fraction is in [0,1] |
| `GameProperties.PairsShowContentTwice` | Concentration/Concentration/MemoryGame.swift:29-33 | with distinct contents per pair, a content appears on exactly 2 cards if some pair has it, else on none |
| `GameProperties.InitShowsEachContentTwice` | Concentration/Concentration/MemoryGame.swift:27-35 | with distinct contents per pair, every content in a fresh game appears on exactly two cards |
| `EmojiMemoryGame.PoolsAreDistinct` | Concentration/Concentration/EmojiMemoryGame.swift:14-19 | each emoji pool has pairwise-different entries |
| `EmojiMemoryGame.PairCountsFitPools` | Concentration/Concentration/EmojiMemoryGame.swift:26-31 | every theme's pair count is between 0 and its pool size |
| `EmojiMemoryGame.ShuffledPool` | Concentration/Concentration/EmojiMemoryGame.swift:26-31 | a shuffled pool has the pool's emojis, still pairwise different |
| `EmojiMemoryGame.Catalog` | Concentration/Concentration/EmojiMemoryGame.swift:25-31 | six themes with the names and pair counts written in `EmojiMemoryGame.init`, each a reordering of its pool, each playable (`numPairs <= emojis.count`, distinct emojis) |
| `EmojiMemoryGame.EmojiFor` | Concentration/Concentration/EmojiMemoryGame.swift:37-39 | the content closure is defined on every pair index below the pool size and gives pair `p` the emoji `emojis[p]` |
| `EmojiMemoryGame.CreateMemoryGame` | Concentration/Concentration/EmojiMemoryGame.swift:36-40 | with `numPairs <= emojis.count` every `emojis[pairIndex]` is in range; the game has score 0, an empty log and 2·numPairs cards; the card with id i is a fresh card (face down, unmatched, limit 6, no clock, no past time) showing `emojis[i / 2]`; the ids are exactly 0..2·numPairs−1, one per card |
| `EmojiMemoryGame.NewSession` | Concentration/Concentration/EmojiMemoryGame.swift:24-34 | the themes are the catalog, the active theme is the drawn entry, and the engine is `createMemoryGame()` for it: score 0, an empty log, 2·numPairs fresh cards with ids 0..2·numPairs−1 |
| `EmojiMemoryGame.Refresh` | Concentration/Concentration/EmojiMemoryGame.swift:54-57 | the catalog is untouched; the theme is the drawn entry; the new engine is `createMemoryGame()` for it, a full reset: score 0, an empty log, 2·numPairs fresh cards with no clocks and ids 0..2·numPairs−1 |
| `EmojiMemoryGame.ChooseCard` | Concentration/Concentration/EmojiMemoryGame.swift:50-52 | forwards unchanged to the engine's `choose`; catalog and theme unchanged |
| `EmojiMemoryGame.ShuffleCards` | Concentration/Concentration/EmojiMemoryGame.swift:63-65 | forwards unchanged to the engine's `shuffle`; catalog and theme unchanged |
| `EmojiMemoryGame.ChooseKeepsSessionValid` | Concentration/Concentration/EmojiMemoryGame.swift:50-52 | `choose` keeps the active theme in the catalog and every theme playable |
| `EmojiMemoryGame.ShuffleKeepsSessionValid` | Concentration/Concentration/EmojiMemoryGame.swift:63-65 | `shuffle` keeps the active theme in the catalog and every theme playable |
| `EmojiMemoryGame.CardsFollowIntents` | Concentration/Concentration/EmojiMemoryGame.swift:45-47 | `cards` (`EmojiMemoryGame.Cards`) shows the engine's cards: a `choose` keeps their number, a `shuffle` reorders them without changing the multiset |
| `EmojiMemoryGame.ScoreFollowsIntents` | Concentration/Concentration/EmojiMemoryGame.swift:59-61 | `getScore()` (`EmojiMemoryGame.GetScore`) shows the engine's score: a `choose` moves it by 0, +2 or −1, a `shuffle` keeps it |
| `EmojiMemoryGame.FreshGameShowsEachEmojiTwice` | Concentration/Concentration/EmojiMemoryGame.swift:36-40 | a fresh engine shows each of the theme's first numPairs emojis, and every emoji it shows, on exactly two cards |
| `EmojiMemoryGame.ApplySession` | Concentration/Concentration/EmojiMemoryGame.swift:50-65 | any one intent (`choose`, `shuffle`, or `refresh` with a draw in range) keeps the session valid and the catalog unchanged |
| `EmojiMemoryGame.RunSessionKeepsCatalog` | Concentration/Concentration/EmojiMemoryGame.swift:50-65 | any sequence of intents keeps the catalog and keeps the active theme one of its entries |
| `EmojiMemoryGame.SessionThemeAlwaysInCatalog` | Concentration/Concentration/EmojiMemoryGame.swift:24-65 | after `init` and any sequence of `choose`, `shuffle` and `refresh`, the catalog is the one built at `init` and the active theme is one of its entries |
| `SeenLogScenario.UnshuffledDeal` | Concentration/Concentration/MemoryGame.swift:27-35 | two pairs with no draws deal A, A, B, B with ids 0–3 |
| `SeenLogScenario.FirstChoice` | Concentration/Concentration/MemoryGame.swift:56-58 | from a fresh deal, choosing card 0 turns it up alone and starts its clock |
| `SeenLogScenario.SecondChoice` | Concentration/Concentration/MemoryGame.swift:48-55 | a first mismatch costs nothing and logs both snapshots |
| `SeenLogScenario.ThirdChoice` | Concentration/Concentration/MemoryGame.swift:56-58 | with two cards up, the next choice turns them down and folds their face-up time |
| `SeenLogScenario.FourthChoice` | Concentration/Concentration/MemoryGame.swift:48-53 | a repeat mismatch on card 2 costs a point iff no time has passed |
| `SeenLogScenario.RepeatMismatchPenalisedOnlyWithFrozenClock` | Concentration/Concentration/MemoryGame.swift:49 | in the four-choice play, the score ends at −1 iff the clock stood still, else at 0 |
| `SeenLogScenario.SpentSecondChoice` | Concentration/Concentration/MemoryGame.swift:48-55 | a mismatch on a card with no bonus time left logs it face down, as it was, and turns it up without a clock |
| `SeenLogScenario.SpentThirdChoice` | Concentration/Concentration/MemoryGame.swift:56-58 | turning the two face-up cards down returns the spent card to exactly its logged value |
| `SeenLogScenario.SpentFourthChoice` | Concentration/Concentration/MemoryGame.swift:48-53 | the repeat mismatch finds the spent card in the log and costs a point, at any time |
| `SeenLogScenario.SpentCardRepeatMismatchPenalised` | Concentration/Concentration/MemoryGame.swift:49 | with a spent card, the repeat mismatch costs a point for every choice of times, with the clock running |
| `SeenLogScenario.SpentCardNotFoundInOtherRole` | Concentration/Concentration/MemoryGame.swift:49-53 | the spent card, logged face down as the chosen card, is not found when it is later the lone face-up card: that mismatch costs nothing at any time |

## Left out

- SwiftUI views (`EmojiMemoryGameView.swift`, `Cardify.swift`): layout, gestures, geometry and animation. They are presentation only.
- The theme colour, and the change publication of `@Published`/`ObservableObject`: framework plumbing with no effect on game state.
- Uniformity of `shuffle()`, `shuffled()` and `Int.random`: randomness is an argument. Only "any permutation" and "an index in range" are modelled.
- `Date()` and `TimeInterval`: time is a `real` with exact arithmetic. There is no IEEE rounding. Swift's `Date()` is read several times within one call to `choose`; the model uses one `now` per call.
- The implicitly unwrapped `model` (`MemoryGame<String>!`): `init` always sets it, so it is an ordinary field.
- Swift's trap on `Int` overflow of the score or of `pairIndex*2`: integers are unbounded. The catalog's pair counts are far below any limit.
- String equality: Swift's `String ==` compares by canonical equivalence, Dafny's `string ==` by code points. They agree on the six literal emoji pools, so no behaviour changes.

=== FILE: cards.dfy ===
/** `MemoryGame.Card`: a card's face/match state and its bonus-time
    bookkeeping. Wall-clock readings (`Date()`) are the explicit `now`
    argument; `TimeInterval`/`Date` are reals. */
module CardState {
  import opened Wrappers

  datatype Card<T> = Card(
    isFaceUp: bool,
    isMatched: bool,
    content: T,
    id: int,
    bonusTimeLimit: real,
    lastFaceUpDate: Option<real>,  // start of the current face-up streak, while the timer runs
    pastFaceUpTime: real           // face-up time accumulated by earlier streaks
  )

  const DefaultBonusTimeLimit: real := 6.0

  /** The memberwise initializer with every defaulted field left at its default. */
  function NewCard<T>(content: T, id: int): (c: Card<T>)
    ensures c.content == content && c.id == id
    ensures !c.isFaceUp && !c.isMatched
    ensures c.bonusTimeLimit == DefaultBonusTimeLimit
    ensures c.lastFaceUpDate == None && c.pastFaceUpTime == 0.0
  {
    Card(false, false, content, id, DefaultBonusTimeLimit, None, 0.0)
  }

  /** Total time face up, the running streak included. */
  function FaceUpTime<T>(c: Card<T>, now: real): (r: real)
    ensures c.lastFaceUpDate.None? ==> r == c.pastFaceUpTime
    ensures c.lastFaceUpDate.Some? && c.lastFaceUpDate.value <= now ==> r >= c.pastFaceUpTime
  {
    match c.lastFaceUpDate
    case Some(since) => c.pastFaceUpTime + (now - since)
    case None => c.pastFaceUpTime
  }

  function BonusTimeRemaining<T>(c: Card<T>, now: real): (r: real)
    ensures r >= 0.0
    ensures r > 0.0 <==> FaceUpTime(c, now) < c.bonusTimeLimit
    ensures FaceUpTime(c, now) >= 0.0 ==> r <= (if c.bonusTimeLimit > 0.0 then c.bonusTimeLimit else 0.0)
  {
    var left := c.bonusTimeLimit - FaceUpTime(c, now);
    if left > 0.0 then left else 0.0
  }

  /** Fraction of the bonus window still left. */
  function BonusRemaining<T>(c: Card<T>, now: real): (r: real)
    ensures r >= 0.0
    ensures c.bonusTimeLimit <= 0.0 ==> r == 0.0
    ensures FaceUpTime(c, now) >= 0.0 ==> r <= 1.0
    ensures r > 0.0 <==> c.bonusTimeLimit > 0.0 && FaceUpTime(c, now) < c.bonusTimeLimit
  {
    if c.bonusTimeLimit > 0.0 && BonusTimeRemaining(c, now) > 0.0
    then
      var fraction := BonusTimeRemaining(c, now) / c.bonusTimeLimit;
      assert FaceUpTime(c, now) >= 0.0 ==> fraction <= 1.0 by {
        if FaceUpTime(c, now) >= 0.0 {
          DivideMonotone(BonusTimeRemaining(c, now), c.bonusTimeLimit, c.bonusTimeLimit);
        }
      }
      fraction
    else 0.0
  }

  /** Matched while some bonus time was still left. */
  predicate HasEarnedBonus<T>(c: Card<T>, now: real)
    ensures HasEarnedBonus(c, now) <==> c.isMatched && FaceUpTime(c, now) < c.bonusTimeLimit
  {
    c.isMatched && BonusTimeRemaining(c, now) > 0.0
  }

  /** Face up, unmatched, and still inside the bonus window. */
  predicate IsConsumingBonusTime<T>(c: Card<T>, now: real)
    ensures IsConsumingBonusTime(c, now) <==> c.isFaceUp && !c.isMatched && FaceUpTime(c, now) < c.bonusTimeLimit
  {
    c.isFaceUp && !c.isMatched && BonusTimeRemaining(c, now) > 0.0
  }

  /** Starts the streak clock, if the card is eating into its bonus and no
      clock is running yet. Starting never changes the face-up time at `now`. */
  function StartUsingBonusTime<T>(c: Card<T>, now: real): (r: Card<T>)
    ensures r.lastFaceUpDate
            == (if IsConsumingBonusTime(c, now) && c.lastFaceUpDate.None? then Some(now) else c.lastFaceUpDate)
    ensures r.(lastFaceUpDate := c.lastFaceUpDate) == c
    ensures FaceUpTime(r, now) == FaceUpTime(c, now)
  {
    if IsConsumingBonusTime(c, now) && c.lastFaceUpDate.None?
    then c.(lastFaceUpDate := Some(now))
    else c
  }

  /** Stops the streak clock: the face-up time reached at `now` is frozen
      for every later reading. */
  function StopUsingBonusTime<T>(c: Card<T>, now: real): (r: Card<T>)
    ensures r.lastFaceUpDate == None
    ensures forall later: real :: FaceUpTime(r, later) == FaceUpTime(c, now)
    ensures r.(lastFaceUpDate := c.lastFaceUpDate, pastFaceUpTime := c.pastFaceUpTime) == c
  {
    c.(pastFaceUpTime := FaceUpTime(c, now), lastFaceUpDate := None)
  }

  /** Assigning `isFaceUp`, with its `didSet` observer: turning up starts the
      clock, turning down stops it. The observer runs on every assignment,
      also when the value does not change. */
  function SetFaceUp<T>(c: Card<T>, up: bool, now: real): (r: Card<T>)
    ensures r.isFaceUp == up
    ensures r.isMatched == c.isMatched && r.content == c.content && r.id == c.id
    ensures r.bonusTimeLimit == c.bonusTimeLimit
    ensures FaceUpTime(r, now) == FaceUpTime(c, now)
    ensures !up ==> r.lastFaceUpDate.None?
    ensures up ==> r.pastFaceUpTime == c.pastFaceUpTime
    ensures up ==> r.lastFaceUpDate
                   == (if IsConsumingBonusTime(c.(isFaceUp := true), now) && c.lastFaceUpDate.None?
                       then Some(now) else c.lastFaceUpDate)
  {
    var flipped := c.(isFaceUp := up);
    if up then StartUsingBonusTime(flipped, now) else StopUsingBonusTime(flipped, now)
  }

  /** Assigning `isMatched`, with its `didSet` observer, which always stops the clock. */
  function SetMatched<T>(c: Card<T>, matched: bool, now: real): (r: Card<T>)
    ensures r.isMatched == matched
    ensures r.isFaceUp == c.isFaceUp && r.content == c.content && r.id == c.id
    ensures r.bonusTimeLimit == c.bonusTimeLimit
    ensures r.lastFaceUpDate.None?
    ensures forall later: real :: FaceUpTime(r, later) == FaceUpTime(c, now)
  {
    StopUsingBonusTime(c.(isMatched := matched), now)
  }

  /** A streak clock runs only on a face-up, unmatched card. */
  predicate TimerOnlyWhileUnmatchedFaceUp<T>(c: Card<T>)
  {
    c.lastFaceUpDate.Some? ==> c.isFaceUp && !c.isMatched
  }

  /** The readings are consistent with a clock that reads `now`: no negative
      past time and no streak started in the future. */
  predicate ClockConsistent<T>(c: Card<T>, now: real)
  {
    c.pastFaceUpTime >= 0.0 && (c.lastFaceUpDate.Some? ==> c.lastFaceUpDate.value <= now)
  }

  lemma SettersKeepTimerOnlyWhileUnmatchedFaceUp<T>(c: Card<T>, b: bool, now: real)
    requires TimerOnlyWhileUnmatchedFaceUp(c)
    ensures TimerOnlyWhileUnmatchedFaceUp(SetFaceUp(c, b, now))
    ensures TimerOnlyWhileUnmatchedFaceUp(SetMatched(c, b, now))
  {
  }

  /** With a consistent clock, face-up time is never negative, so the bonus
      fraction stays within [0, 1]; both setters keep the clock consistent. */
  lemma ClockConsistentBounds<T>(c: Card<T>, b: bool, now: real, later: real)
    requires ClockConsistent(c, now) && now <= later
    ensures FaceUpTime(c, now) >= 0.0
    ensures 0.0 <= BonusRemaining(c, now) <= 1.0
    ensures ClockConsistent(c, later)
    ensures ClockConsistent(SetFaceUp(c, b, now), now)
    ensures ClockConsistent(SetMatched(c, b, now), now)
  {
  }

  /** While the clock runs, the bonus fraction only goes down. */
  lemma BonusRemainingDecays<T>(c: Card<T>, t1: real, t2: real)
    requires t1 <= t2
    ensures BonusTimeRemaining(c, t2) <= BonusTimeRemaining(c, t1)
    ensures BonusRemaining(c, t2) <= BonusRemaining(c, t1)
  {
    var l := c.bonusTimeLimit;
    if l > 0.0 && BonusTimeRemaining(c, t2) > 0.0 {
      assert BonusTimeRemaining(c, t2) / l <= BonusTimeRemaining(c, t1) / l by {
        DivideMonotone(BonusTimeRemaining(c, t2), BonusTimeRemaining(c, t1), l);
      }
    }
  }

  lemma DivideMonotone(a: real, b: real, l: real)
    requires a <= b && l > 0.0
    ensures a / l <= b / l
  {
  }

  /** A fresh card turned face up starts a full bonus window at `now`,
      which then runs down linearly over the default six units. */
  lemma FreshCardStartsFullBonus<T>(content: T, id: int, now: real, later: real)
    requires now <= later
    ensures var up := SetFaceUp(NewCard(content, id), true, now);
      && up.lastFaceUpDate == Some(now)
      && IsConsumingBonusTime(up, now)
      && BonusRemaining(up, now) == 1.0
      && BonusRemaining(up, later)
         == (if later - now < DefaultBonusTimeLimit then (DefaultBonusTimeLimit - (later - now)) / DefaultBonusTimeLimit else 0.0)
  {
  }

  /** Once a card has spent its whole bonus window and no clock runs,
      flipping it changes only `isFaceUp`: no clock starts, so the timing
      fields stay as they are. */
  lemma SpentCardFlipsWithoutTiming<T>(c: Card<T>, up: bool, now: real)
    requires c.lastFaceUpDate.None? && c.pastFaceUpTime >= c.bonusTimeLimit
    ensures SetFaceUp(c, up, now) == c.(isFaceUp := up)
  {
  }

  /** While a clock runs, the face-up time grows one for one with the clock. */
  lemma FaceUpTimeRunsWithClock<T>(c: Card<T>, t1: real, t2: real)
    requires c.lastFaceUpDate.Some?
    ensures FaceUpTime(c, t2) - FaceUpTime(c, t1) == t2 - t1
  {
  }
}

=== FILE: emoji_memory_game.dfy ===
/** `EmojiMemoryGame`: the session that owns the theme catalog, picks a
    theme, builds an engine over its emojis and forwards the user's intents.
    `Theme` is the record of Theme.swift without its display colour. */
module EmojiMemoryGame {
  import opened Seqs
  import opened CardState
  import opened MemoryGame
  import opened GameProperties

  datatype Theme = Theme(name: string, emojis: seq<string>, numPairs: int)

  const Travels: seq<string> := ["🚗", "🏎", "🚑", "🚜", "🛴", "🚀", "🛩", "🚁", "🛺", "🛵", "🚂", "🛸"]
  const Sports: seq<string> := ["⚽️", "🏀", "🏈", "🎾", "🥏", "🥍", "⚾️", "🏹", "⛳️"]
  const Animals: seq<string> := ["🐶", "🐷", "🐵", "🐥", "🦄", "🦋", "🐬", "🦒"]
  const Fruits: seq<string> := ["🍎", "🍐", "🍊", "🍌", "🫐", "🍍", "🍒", "🥭"]
  const Veggies: seq<string> := ["🌽", "🥦", "🥑", "🥒", "🫑", "🥬"]
  const Snacks: seq<string> := ["🥐", "🥨", "🍟", "🍦", "🍫", "🍪", "🧁", "🧇"]

  /** The emoji pools, in catalog order. */
  const Pools: seq<seq<string>> := [Travels, Sports, Animals, Fruits, Veggies, Snacks]

  lemma PoolsAreDistinct()
    ensures forall k :: 0 <= k < |Pools| ==> Distinct(Pools[k])
  {
    assert Distinct(Travels) && Distinct(Sports) && Distinct(Animals);
    assert Distinct(Fruits) && Distinct(Veggies) && Distinct(Snacks);
  }

  /** The random draws for the `k`-th `shuffled()` call; missing draws are empty. */
  function DrawsFor(shuffles: seq<seq<nat>>, k: nat): seq<nat>
  {
    if k < |shuffles| then shuffles[k] else []
  }

  /** A theme the engine can be built from without trapping, whose emojis
      are pairwise different. */
  predicate PlayableTheme(t: Theme)
  {
    0 <= t.numPairs <= |t.emojis| && Distinct(t.emojis)
  }

  /** Theme names and pair counts, in catalog order. */
  const Names: seq<string> := ["Travel", "Sports", "Animals", "Fruits", "Vegetables", "Snacks"]
  const PairCounts: seq<int> := [12, 8, 6, 7, 5, 8]

  /** Every pair count fits its pool. */
  lemma PairCountsFitPools()
    ensures |Names| == |PairCounts| == |Pools| == 6
    ensures forall k :: 0 <= k < |Pools| ==> 0 <= PairCounts[k] <= |Pools[k]|
  {
    assert |Travels| == 12 && |Sports| == 9 && |Animals| == 8;
    assert |Fruits| == 8 && |Veggies| == 6 && |Snacks| == 8;
  }

  /** `pool.shuffled()` for the `k`-th pool: still pairwise different. */
  function ShuffledPool(shuffles: seq<seq<nat>>, k: nat): (r: seq<string>)
    requires k < |Pools|
    ensures multiset(r) == multiset(Pools[k]) && |r| == |Pools[k]|
    ensures Distinct(r)
  {
    PoolsAreDistinct();
    PermutePreservesDistinct(Pools[k], DrawsFor(shuffles, k));
    Permute(Pools[k], DrawsFor(shuffles, k))
  }

  /** The catalog `init` builds: every pool `shuffled()` by its own draws,
      every pair count within its pool. */
  function Catalog(shuffles: seq<seq<nat>>): (themes: seq<Theme>)
    ensures |themes| == |Pools|
    ensures forall k :: 0 <= k < |themes| ==>
              && themes[k].name == Names[k] && themes[k].numPairs == PairCounts[k]
              && multiset(themes[k].emojis) == multiset(Pools[k])
    ensures forall k :: 0 <= k < |themes| ==> PlayableTheme(themes[k])
  {
    PairCountsFitPools();
    seq(|Pools|, k requires 0 <= k < |Pools| => Theme(Names[k], ShuffledPool(shuffles, k), PairCounts[k]))
  }

  /** The content generator `createMemoryGame` hands the engine: pair `p` shows `emojis[p]`. */
  function EmojiFor(emojis: seq<string>): (f: int --> string)
    ensures forall p :: 0 <= p < |emojis| ==> f.requires(p) && f(p) == emojis[p]
  {
    p requires 0 <= p < |emojis| => emojis[p]
  }

  /** `createMemoryGame()`: an engine with `numPairs` pairs whose pair `p`
      shows `emojis[p]`; the bound on `numPairs` is what keeps that index
      in range. */
  function CreateMemoryGame(theme: Theme, rolls: seq<nat>): (g: Game<string>)
    requires 0 <= theme.numPairs <= |theme.emojis|
    ensures |g.cards| == 2 * theme.numPairs && g.score == 0 && g.alreadySeen == []
    ensures forall i :: 0 <= i < |g.cards| ==>
              && !g.cards[i].isFaceUp && !g.cards[i].isMatched
              && 0 <= g.cards[i].id < 2 * theme.numPairs
              && g.cards[i].content == theme.emojis[g.cards[i].id / 2]
    ensures forall i :: 0 <= i < |g.cards| ==> g.cards[i] == NewCard(theme.emojis[g.cards[i].id / 2], g.cards[i].id)
    ensures Ids(g.cards) == IdRange(2 * theme.numPairs)
  {
    Init(theme.numPairs, EmojiFor(theme.emojis), rolls)
  }

  /** The view model's state; `theme` is always one of `themes`. */
  datatype Session = Session(themes: seq<Theme>, theme: Theme, model: Game<string>)

  ghost predicate Valid(s: Session)
  {
    && (forall t | t in s.themes :: PlayableTheme(t))
    && s.theme in s.themes
  }

  /** `init()`: build the catalog, draw a theme index from `0..<themes.count`
      (the random draw `pick`), build the engine. */
  function NewSession(shuffles: seq<seq<nat>>, pick: nat, rolls: seq<nat>): (s: Session)
    requires pick < |Pools|
    ensures Valid(s)
    ensures s.themes == Catalog(shuffles) && s.theme == s.themes[pick]
    ensures s.model.score == 0 && s.model.alreadySeen == []
    ensures |s.model.cards| == 2 * s.theme.numPairs
    ensures forall i :: 0 <= i < |s.model.cards| ==> !s.model.cards[i].isFaceUp && !s.model.cards[i].isMatched
    ensures s.model == CreateMemoryGame(s.theme, rolls)
  {
    var themes := Catalog(shuffles);
    var theme := themes[pick];
    Session(themes, theme, CreateMemoryGame(theme, rolls))
  }

  /** `refresh()`: a new theme from the same catalog and a brand-new engine. */
  function Refresh(s: Session, pick: nat, rolls: seq<nat>): (r: Session)
    requires Valid(s) && pick < |s.themes|
    ensures Valid(r)
    ensures r.themes == s.themes && r.theme == s.themes[pick]
    ensures r.model.score == 0 && r.model.alreadySeen == []
    ensures |r.model.cards| == 2 * r.theme.numPairs
    ensures forall i :: 0 <= i < |r.model.cards| ==> !r.model.cards[i].isFaceUp && !r.model.cards[i].isMatched
    ensures r.model == CreateMemoryGame(r.theme, rolls)
  {
    var theme := s.themes[pick];
    assert PlayableTheme(theme);
    Session(s.themes, theme, CreateMemoryGame(theme, rolls))
  }

  /** `choose(_:)` intent: forwarded unchanged to the engine. */
  function ChooseCard(s: Session, card: Card<string>, now: real): (r: Session)
    ensures r.model == Choose(s.model, card, now)
    ensures r.themes == s.themes && r.theme == s.theme
  {
    s.(model := Choose(s.model, card, now))
  }

  /** `shuffle()` intent: forwarded unchanged to the engine. */
  function ShuffleCards(s: Session, rolls: seq<nat>): (r: Session)
    ensures r.model == Shuffle(s.model, rolls)
    ensures r.themes == s.themes && r.theme == s.theme
  {
    s.(model := Shuffle(s.model, rolls))
  }

  /** The `cards` projection. */
  function Cards(s: Session): seq<Card<string>>
  {
    s.model.cards
  }

  /** `getScore()`. */
  function GetScore(s: Session): int
  {
    s.model.score
  }

  /** Intents keep the session valid: the theme stays a catalog entry. */
  lemma ChooseKeepsSessionValid(s: Session, card: Card<string>, now: real)
    requires Valid(s)
    ensures Valid(ChooseCard(s, card, now))
  {
  }

  lemma ShuffleKeepsSessionValid(s: Session, rolls: seq<nat>)
    requires Valid(s)
    ensures Valid(ShuffleCards(s, rolls))
  {
  }

  /** Through `cards`, one `choose` keeps the number of cards and a
      `shuffle` reorders them. */
  lemma CardsFollowIntents(s: Session, card: Card<string>, now: real, rolls: seq<nat>)
    ensures |Cards(ChooseCard(s, card, now))| == |Cards(s)|
    ensures multiset(Cards(ShuffleCards(s, rolls))) == multiset(Cards(s))
  {
  }

  /** Through `getScore()`, one `choose` moves the score by 0, +2 or -1 and
      a `shuffle` leaves it alone. */
  lemma ScoreFollowsIntents(s: Session, card: Card<string>, now: real, rolls: seq<nat>)
    ensures var d := GetScore(ChooseCard(s, card, now)) - GetScore(s); d == 0 || d == 2 || d == -1
    ensures GetScore(ShuffleCards(s, rolls)) == GetScore(s)
  {
  }

  /** A fresh engine of a playable theme shows each of its first `numPairs`
      emojis on exactly two cards, and no other emoji. */
  lemma FreshGameShowsEachEmojiTwice(theme: Theme, rolls: seq<nat>)
    requires PlayableTheme(theme)
    ensures var g := CreateMemoryGame(theme, rolls);
      && (forall i :: 0 <= i < |g.cards| ==> Count(g.cards, HasContent(g.cards[i].content)) == 2)
      && (forall p :: 0 <= p < theme.numPairs ==> Count(g.cards, HasContent(theme.emojis[p])) == 2)
  {
    var f := EmojiFor(theme.emojis);
    var g := CreateMemoryGame(theme, rolls);
    assert forall p :: 0 <= p < theme.numPairs ==> f(p) == theme.emojis[p];
    assert InjectiveUpTo(theme.numPairs, f);
    InitShowsEachContentTwice(theme.numPairs, f, rolls);
    var pairs := Pairs(theme.numPairs, f);
    assert g.cards == Permute(pairs, rolls);
    forall p | 0 <= p < theme.numPairs
      ensures Count(g.cards, HasContent(theme.emojis[p])) == 2
    {
      CountPermutation(g.cards, pairs, HasContent(theme.emojis[p]));
      PairsShowContentTwice(theme.numPairs, f, theme.emojis[p]);
      assert f(p) == theme.emojis[p];
    }
  }

  /** The intents a player can send to the session. */
  datatype SessionIntent =
    | ChooseIntent(card: Card<string>, now: real)
    | ShuffleIntent(rolls: seq<nat>)
    | RefreshIntent(pick: nat, rolls: seq<nat>)

  /** Every `refresh` draw lies in `0..<count`, as `Int.random(in:)` promises. */
  predicate PicksBelow(intents: seq<SessionIntent>, count: nat)
  {
    forall k :: 0 <= k < |intents| && intents[k].RefreshIntent? ==> intents[k].pick < count
  }

  function ApplySession(s: Session, intent: SessionIntent): (r: Session)
    requires Valid(s)
    requires intent.RefreshIntent? ==> intent.pick < |s.themes|
    ensures Valid(r) && r.themes == s.themes
  {
    match intent
    case ChooseIntent(card, now) => ChooseKeepsSessionValid(s, card, now); ChooseCard(s, card, now)
    case ShuffleIntent(rolls) => ShuffleKeepsSessionValid(s, rolls); ShuffleCards(s, rolls)
    case RefreshIntent(pick, rolls) => Refresh(s, pick, rolls)
  }

  function RunSession(s: Session, intents: seq<SessionIntent>): Session
    requires Valid(s) && PicksBelow(intents, |s.themes|)
    decreases |intents|
  {
    if intents == [] then s
    else RunSession(ApplySession(s, intents[0]), intents[1..])
  }

  /** Any sequence of intents keeps the catalog and keeps the active theme
      one of its entries. */
  lemma {:induction false} RunSessionKeepsCatalog(s: Session, intents: seq<SessionIntent>)
    requires Valid(s) && PicksBelow(intents, |s.themes|)
    ensures RunSession(s, intents).themes == s.themes
    ensures RunSession(s, intents).theme in s.themes
    decreases |intents|
  {
    if intents != [] {
      RunSessionKeepsCatalog(ApplySession(s, intents[0]), intents[1..]);
    }
  }

  /** Every session a player can reach — `init`, then any mix of `choose`,
      `shuffle` and `refresh` — keeps the catalog built at `init` and plays
      one of its themes. */
  lemma SessionThemeAlwaysInCatalog(shuffles: seq<seq<nat>>, pick: nat, rolls: seq<nat>,
                                    intents: seq<SessionIntent>)
    requires pick < |Pools| && PicksBelow(intents, |Pools|)
    ensures var r := RunSession(NewSession(shuffles, pick, rolls), intents);
      && r.themes == Catalog(shuffles)
      && r.theme in Catalog(shuffles)
  {
    RunSessionKeepsCatalog(NewSession(shuffles, pick, rolls), intents);
  }
}

=== FILE: game_properties.dfy ===
/** What `choose` and `shuffle` promise, branch by branch, and the
    invariant that holds across any sequence of intents after `init`. */
module GameProperties {
  import opened Wrappers
  import opened Seqs
  import opened CardState
  import opened MemoryGame

  lemma FirstWithIdUnique<T>(cards: seq<Card<T>>, i: int, j: int, id: int)
    requires IsFirstWithId(cards, i, id) && IsFirstWithId(cards, j, id)
    ensures i == j
  {
  }

  /** The lookup finds the first card carrying the id. */
  lemma FirstIndexFindsFirst<T>(cards: seq<Card<T>>, i: int, id: int)
    requires IsFirstWithId(cards, i, id)
    ensures FirstIndex(cards, id) == Some(i)
  {
    match FirstIndex(cards, id)
    case None =>
    case Some(j) => FirstWithIdUnique(cards, i, j, id);
  }

  /** `choose` is a no-op for an unknown id and for a card that is already
      face up or matched. */
  lemma ChooseIgnoresUnselectable<T>(g: Game<T>, card: Card<T>, now: real, chosen: int)
    requires (forall i :: 0 <= i < |g.cards| ==> g.cards[i].id != card.id)
             || (IsFirstWithId(g.cards, chosen, card.id) && (g.cards[chosen].isFaceUp || g.cards[chosen].isMatched))
    ensures Choose(g, card, now) == g
  {
    match FirstIndex(g.cards, card.id)
    case None =>
    case Some(i) =>
      FirstWithIdUnique(g.cards, i, chosen, card.id);
  }

  /** A selectable card: the first with its id, face down and unmatched. */
  predicate Selectable<T>(g: Game<T>, card: Card<T>, chosen: int)
  {
    IsFirstWithId(g.cards, chosen, card.id) && !g.cards[chosen].isFaceUp && !g.cards[chosen].isMatched
  }

  /** A match against the lone face-up card matches both, scores exactly 2,
      leaves both face up and touches nothing else. */
  lemma ChooseMatch<T>(g: Game<T>, card: Card<T>, now: real, chosen: int, other: int)
    requires Selectable(g, card, chosen)
    requires SoleFaceUp(g.cards, other)
    requires g.cards[chosen].content == g.cards[other].content
    ensures var r := Choose(g, card, now);
      && r.score == g.score + 2
      && r.alreadySeen == g.alreadySeen
      && r.cards[chosen].isMatched && r.cards[other].isMatched
      && r.cards[chosen].isFaceUp && r.cards[other].isFaceUp
      && r.cards[chosen].lastFaceUpDate.None? && r.cards[other].lastFaceUpDate.None?
      && (forall later: real ::
            && FaceUpTime(r.cards[chosen], later) == FaceUpTime(g.cards[chosen], now)
            && FaceUpTime(r.cards[other], later) == FaceUpTime(g.cards[other], now)
            && (HasEarnedBonus(r.cards[chosen], later) <==> FaceUpTime(g.cards[chosen], now) < g.cards[chosen].bonusTimeLimit))
      && forall k :: 0 <= k < |g.cards| && k != chosen && k != other ==> r.cards[k] == g.cards[k]
  {
    var i := FirstIndex(g.cards, card.id).value;
    FirstWithIdUnique(g.cards, i, chosen, card.id);
  }

  /** A mismatch costs exactly 1 when either card's current value is already
      logged and nothing otherwise (never 2); it logs the lone face-up card
      and then the chosen one, and turns the chosen card up beside it. */
  lemma ChooseMismatch<T>(g: Game<T>, card: Card<T>, now: real, chosen: int, other: int)
    requires Selectable(g, card, chosen)
    requires SoleFaceUp(g.cards, other)
    requires g.cards[chosen].content != g.cards[other].content
    ensures var r := Choose(g, card, now);
      && (r.score == g.score - 1 <==> g.cards[other] in g.alreadySeen || g.cards[chosen] in g.alreadySeen)
      && (r.score == g.score || r.score == g.score - 1)
      && r.alreadySeen == g.alreadySeen + [g.cards[other], g.cards[chosen]]
      && r.cards[chosen].isFaceUp && !r.cards[chosen].isMatched
      && r.cards[chosen] == SetFaceUp(g.cards[chosen], true, now)
      && r.cards[other] == g.cards[other]
      && forall k :: 0 <= k < |g.cards| && k != chosen ==> r.cards[k] == g.cards[k]
  {
    var i := FirstIndex(g.cards, card.id).value;
    FirstWithIdUnique(g.cards, i, chosen, card.id);
  }

  /** Without a lone face-up card (none, or two), the chosen card becomes
      the only face-up card and score and log stay as they were. */
  lemma ChooseWithoutLoneFaceUpCard<T>(g: Game<T>, card: Card<T>, now: real, chosen: int)
    requires Selectable(g, card, chosen)
    requires forall i :: !SoleFaceUp(g.cards, i)
    ensures Choose(g, card, now) == Game(SetIndexOfTheOneAndOnlyFaceUpCard(g.cards, chosen, now), g.score, g.alreadySeen)
    ensures var r := Choose(g, card, now);
      && SoleFaceUp(r.cards, chosen)
      && r.score == g.score && r.alreadySeen == g.alreadySeen
      && forall k :: 0 <= k < |g.cards| ==> r.cards[k].isMatched == g.cards[k].isMatched
  {
    var i := FirstIndex(g.cards, card.id).value;
    FirstWithIdUnique(g.cards, i, chosen, card.id);
  }

  function IsFaceUpUnmatched<T>(c: Card<T>): bool
  {
    c.isFaceUp && !c.isMatched
  }

  /** Between intents at most two cards are face up, a lone face-up card is
      unmatched, and only a face-up unmatched card has a running clock. */
  ghost predicate Invariant<T>(g: Game<T>)
  {
    && Count(g.cards, IsFaceUp) <= 2
    && (Count(g.cards, IsFaceUp) == 1 ==> Count(g.cards, IsFaceUpUnmatched) == 1)
    && forall c | c in g.cards :: TimerOnlyWhileUnmatchedFaceUp(c)
  }

  lemma InvariantLoneCardIsUnmatched<T>(g: Game<T>, i: int)
    requires Invariant(g) && SoleFaceUp(g.cards, i)
    ensures !g.cards[i].isMatched
  {
    CountOne(g.cards, IsFaceUp, i);
    CountZero(g.cards, IsFaceUpUnmatched);
  }

  lemma InitEstablishesInvariant<T>(n: int, createCardContent: int --> T, rolls: seq<nat>)
    requires n >= 0
    requires forall p :: 0 <= p < n ==> createCardContent.requires(p)
    ensures Invariant(Init(n, createCardContent, rolls))
  {
    var g := Init(n, createCardContent, rolls);
    CountZero(g.cards, IsFaceUp);
  }

  lemma UpdateKeepsTimers<T>(s: seq<Card<T>>, i: int, x: Card<T>)
    requires 0 <= i < |s|
    requires forall c | c in s :: TimerOnlyWhileUnmatchedFaceUp(c)
    requires TimerOnlyWhileUnmatchedFaceUp(x)
    ensures forall c | c in s[i := x] :: TimerOnlyWhileUnmatchedFaceUp(c)
  {
    forall c | c in s[i := x] ensures TimerOnlyWhileUnmatchedFaceUp(c) {
      var k :| 0 <= k < |s| && s[i := x][k] == c;
      if k != i {
        assert c == s[k];
      }
    }
  }

  lemma ChooseKeepsInvariant<T>(g: Game<T>, card: Card<T>, now: real)
    requires Invariant(g)
    ensures Invariant(Choose(g, card, now))
  {
    match FirstIndex(g.cards, card.id)
    case None =>
    case Some(chosen) =>
      if !g.cards[chosen].isFaceUp && !g.cards[chosen].isMatched {
        var cards := g.cards;
        assert TimerOnlyWhileUnmatchedFaceUp(cards[chosen]);
        match IndexOfTheOneAndOnlyFaceUpCard(cards)
        case Some(other) =>
          assert cards[chosen].isFaceUp == false;
          if cards[chosen].content == cards[other].content {
            var m1 := SetMatched(cards[chosen], true, now);
            var c1 := cards[chosen := m1];
            CountUpdate(cards, chosen, m1, IsFaceUp);
            UpdateKeepsTimers(cards, chosen, m1);
            var m2 := SetMatched(c1[other], true, now);
            var c2 := c1[other := m2];
            CountUpdate(c1, other, m2, IsFaceUp);
            UpdateKeepsTimers(c1, other, m2);
            assert c2[chosen] == m1;
            var u := SetFaceUp(c2[chosen], true, now);
            assert TimerOnlyWhileUnmatchedFaceUp(c2[chosen]);
            SettersKeepTimerOnlyWhileUnmatchedFaceUp(c2[chosen], true, now);
            CountUpdate(c2, chosen, u, IsFaceUp);
            UpdateKeepsTimers(c2, chosen, u);
          } else {
            var u := SetFaceUp(cards[chosen], true, now);
            SettersKeepTimerOnlyWhileUnmatchedFaceUp(cards[chosen], true, now);
            CountUpdate(cards, chosen, u, IsFaceUp);
            UpdateKeepsTimers(cards, chosen, u);
          }
        case None =>
          var r := SetIndexOfTheOneAndOnlyFaceUpCard(cards, chosen, now);
          CountOne(r, IsFaceUp, chosen);
          CountOne(r, IsFaceUpUnmatched, chosen);
          forall c | c in r ensures TimerOnlyWhileUnmatchedFaceUp(c) {
            var k :| 0 <= k < |r| && r[k] == c;
            SettersKeepTimerOnlyWhileUnmatchedFaceUp(cards[k], k == chosen, now);
          }
      }
  }

  lemma ShuffleKeepsInvariant<T>(g: Game<T>, rolls: seq<nat>)
    requires Invariant(g)
    ensures Invariant(Shuffle(g, rolls))
  {
    var r := Shuffle(g, rolls);
    CountPermutation(r.cards, g.cards, IsFaceUp);
    CountPermutation(r.cards, g.cards, IsFaceUpUnmatched);
    forall c | c in r.cards ensures TimerOnlyWhileUnmatchedFaceUp(c) {
      assert c in multiset(g.cards);
    }
  }

  /** The user's intents, each with the clock reading or random draws it needs. */
  datatype Intent<T> = ChooseStep(card: Card<T>, now: real) | ShuffleStep(rolls: seq<nat>)

  function Apply<T(==)>(g: Game<T>, intent: Intent<T>): Game<T>
  {
    match intent
    case ChooseStep(card, now) => Choose(g, card, now)
    case ShuffleStep(rolls) => Shuffle(g, rolls)
  }

  function Run<T(==)>(g: Game<T>, intents: seq<Intent<T>>): Game<T>
    decreases |intents|
  {
    if |intents| == 0 then g else Run(Apply(g, intents[0]), intents[1..])
  }

  lemma {:induction false} RunKeepsInvariant<T>(g: Game<T>, intents: seq<Intent<T>>)
    requires Invariant(g)
    ensures Invariant(Run(g, intents))
    decreases |intents|
  {
    if |intents| > 0 {
      match intents[0] {
        case ChooseStep(card, now) => ChooseKeepsInvariant(g, card, now);
        case ShuffleStep(rolls) => ShuffleKeepsInvariant(g, rolls);
      }
      RunKeepsInvariant(Apply(g, intents[0]), intents[1..]);
    }
  }

  /** After `init` and any sequence of intents, at most two cards are face
      up, and a lone face-up card is unmatched. */
  lemma AtMostTwoFaceUpAfterAnyPlay<T>(n: int, createCardContent: int --> T, rolls: seq<nat>, intents: seq<Intent<T>>)
    requires n >= 0
    requires forall p :: 0 <= p < n ==> createCardContent.requires(p)
    ensures var g := Run(Init(n, createCardContent, rolls), intents);
      && |FaceUpIndices(g.cards)| <= 2
      && forall i :: SoleFaceUp(g.cards, i) ==> !g.cards[i].isMatched
  {
    var g0 := Init(n, createCardContent, rolls);
    InitEstablishesInvariant(n, createCardContent, rolls);
    RunKeepsInvariant(g0, intents);
    var g := Run(g0, intents);
    forall i | SoleFaceUp(g.cards, i) ensures !g.cards[i].isMatched {
      InvariantLoneCardIsUnmatched(g, i);
    }
  }

  /** Every card's clock readings agree with a clock reading `now`. */
  ghost predicate ClockConsistentGame<T>(g: Game<T>, now: real)
  {
    forall c | c in g.cards :: ClockConsistent(c, now)
  }

  /** With a clock that never runs backwards, `choose` keeps every card's
      readings consistent, so every bonus fraction stays within [0, 1]. */
  lemma ChooseKeepsClockConsistent<T>(g: Game<T>, card: Card<T>, before: real, now: real)
    requires ClockConsistentGame(g, before) && before <= now
    ensures ClockConsistentGame(Choose(g, card, now), now)
    ensures forall c | c in Choose(g, card, now).cards :: 0.0 <= BonusRemaining(c, now) <= 1.0
  {
    var r := Choose(g, card, now);
    forall c | c in g.cards ensures ClockConsistent(c, now) {
      ClockConsistentBounds(c, true, before, now);
    }
    forall c | c in r.cards ensures ClockConsistent(c, now) && 0.0 <= BonusRemaining(c, now) <= 1.0 {
      var k :| 0 <= k < |r.cards| && r.cards[k] == c;
      ClockAfterChoose(g, card, now, k);
      ClockConsistentBounds(c, true, now, now);
    }
  }

  lemma ClockAfterChoose<T>(g: Game<T>, card: Card<T>, now: real, k: int)
    requires forall c | c in g.cards :: ClockConsistent(c, now)
    requires 0 <= k < |g.cards|
    ensures ClockConsistent(Choose(g, card, now).cards[k], now)
  {
    var cards := g.cards;
    assert ClockConsistent(cards[k], now);
    match FirstIndex(cards, card.id)
    case None =>
    case Some(chosen) =>
      if !cards[chosen].isFaceUp && !cards[chosen].isMatched {
        assert ClockConsistent(cards[chosen], now);
        match IndexOfTheOneAndOnlyFaceUpCard(cards)
        case Some(other) =>
          if cards[chosen].content == cards[other].content {
            var c1 := cards[chosen := SetMatched(cards[chosen], true, now)];
            var c2 := c1[other := SetMatched(c1[other], true, now)];
            assert Choose(g, card, now).cards == c2[chosen := SetFaceUp(c2[chosen], true, now)];
            assert ClockConsistent(cards[other], now);
            ClockConsistentBounds(cards[other], true, now, now);
            ClockConsistentBounds(cards[chosen], true, now, now);
            ClockConsistentBounds(SetMatched(cards[chosen], true, now), true, now, now);
          } else {
            assert Choose(g, card, now).cards == cards[chosen := SetFaceUp(cards[chosen], true, now)];
            ClockConsistentBounds(cards[chosen], true, now, now);
          }
        case None =>
          ClockConsistentBounds(cards[k], k == chosen, now, now);
      }
  }

  /** Cards showing `content`. */
  function HasContent<T(==)>(content: T): Card<T> -> bool
  {
    (c: Card<T>) => c.content == content
  }

  /** `createCardContent` gives different pairs different contents. */
  ghost predicate InjectiveUpTo<T>(n: int, createCardContent: int --> T)
    requires forall p :: 0 <= p < n ==> createCardContent.requires(p)
  {
    forall p, q :: 0 <= p < q < n ==> createCardContent(p) != createCardContent(q)
  }

  lemma {:induction false} PairsShowContentTwice<T>(n: int, createCardContent: int --> T, content: T)
    requires n >= 0
    requires forall p :: 0 <= p < n ==> createCardContent.requires(p)
    requires InjectiveUpTo(n, createCardContent)
    ensures Count(Pairs(n, createCardContent), HasContent(content))
            == if exists p :: 0 <= p < n && createCardContent(p) == content then 2 else 0
    decreases n
  {
    if n > 0 {
      var front := Pairs(n - 1, createCardContent);
      var last := createCardContent(n - 1);
      var two := [NewCard(last, 2 * (n - 1)), NewCard(last, 2 * (n - 1) + 1)];
      assert Pairs(n, createCardContent) == front + two;
      CountAppend(front, two, HasContent(content));
      assert Count(two[..1], HasContent(content)) == if last == content then 1 else 0 by {
        assert two[..1][..0] == [];
      }
      assert HasContent(content)(two[0]) == HasContent(content)(two[1]) == (last == content);
      assert Count(two, HasContent(content)) == if last == content then 2 else 0;
      PairsShowContentTwice(n - 1, createCardContent, content);
      if last == content {
        assert !exists p :: 0 <= p < n - 1 && createCardContent(p) == content;
      } else if exists p :: 0 <= p < n && createCardContent(p) == content {
        var p :| 0 <= p < n && createCardContent(p) == content;
        assert p < n - 1;
      }
    }
  }

  /** With a content generator that gives every pair its own content, a
      fresh game shows every content it shows on exactly two cards. */
  lemma InitShowsEachContentTwice<T>(n: int, createCardContent: int --> T, rolls: seq<nat>)
    requires n >= 0
    requires forall p :: 0 <= p < n ==> createCardContent.requires(p)
    requires InjectiveUpTo(n, createCardContent)
    ensures var g := Init(n, createCardContent, rolls);
      forall i :: 0 <= i < |g.cards| ==> Count(g.cards, HasContent(g.cards[i].content)) == 2
  {
    var pairs := Pairs(n, createCardContent);
    var g := Init(n, createCardContent, rolls);
    assert g.cards == Permute(pairs, rolls);
    forall i | 0 <= i < |g.cards|
      ensures Count(g.cards, HasContent(g.cards[i].content)) == 2
    {
      var p := g.cards[i].id / 2;
      assert 0 <= p < n && g.cards[i].content == createCardContent(p);
      CountPermutation(g.cards, pairs, HasContent(g.cards[i].content));
      PairsShowContentTwice(n, createCardContent, g.cards[i].content);
    }
  }
}

=== FILE: memory_game.dfy ===
/** `MemoryGame`: the matching engine. A game is a value; every intent is a
    pure transition that takes the clock reading `now` it needs. */
module MemoryGame {
  import opened Wrappers
  import opened Seqs
  import opened CardState

  datatype Game<T> = Game(
    cards: seq<Card<T>>,
    score: int,
    alreadySeen: seq<Card<T>>  // snapshots of cards taken at each mismatch, oldest first
  )

  function IsFaceUp<T>(c: Card<T>): bool
  {
    c.isFaceUp
  }

  /** The two cards of every pair, in order: ids `2p` and `2p+1` carry
      `createCardContent(p)`. */
  function Pairs<T>(n: int, createCardContent: int --> T): (cards: seq<Card<T>>)
    requires n >= 0
    requires forall p :: 0 <= p < n ==> createCardContent.requires(p)
    ensures |cards| == 2 * n
    ensures forall i :: 0 <= i < |cards| ==> cards[i] == NewCard(createCardContent(i / 2), i)
    decreases n
  {
    if n == 0 then []
    else
      var content := createCardContent(n - 1);
      Pairs(n - 1, createCardContent) + [NewCard(content, 2 * (n - 1)), NewCard(content, 2 * (n - 1) + 1)]
  }

  /** `init(numberOfPairsOfCards:createCardContent:)`: the pairs, shuffled by
      the random draws `rolls`. In Swift, `MemoryGame.init` traps on a negative pair
      count (the range `0..<n` cannot be formed), hence the precondition. */
  function Init<T(==)>(n: int, createCardContent: int --> T, rolls: seq<nat>): (g: Game<T>)
    requires n >= 0
    requires forall p :: 0 <= p < n ==> createCardContent.requires(p)
    ensures |g.cards| == 2 * n && g.score == 0 && g.alreadySeen == []
    ensures forall i :: 0 <= i < |g.cards| ==>
              && 0 <= g.cards[i].id < 2 * n
              && g.cards[i] == NewCard(createCardContent(g.cards[i].id / 2), g.cards[i].id)
    ensures Ids(g.cards) == IdRange(2 * n)
    ensures forall i, j :: 0 <= i < j < |g.cards| ==> g.cards[i].id != g.cards[j].id
  {
    var pairs := Pairs(n, createCardContent);
    var cards := Permute(pairs, rolls);
    PairsAreShuffledIntact(pairs, cards, 2 * n);
    Game(cards, 0, [])
  }

  /** The ids carried by `cards`. */
  function Ids<T>(cards: seq<Card<T>>): set<int>
  {
    set i | 0 <= i < |cards| :: cards[i].id
  }

  /** The ids `0..<n`. */
  function IdRange(n: int): (r: set<int>)
    ensures forall id :: id in r <==> 0 <= id < n
  {
    if n <= 0 then {} else IdRange(n - 1) + {n - 1}
  }

  /** A reordering of cards whose ids are their positions keeps every
      card, and keeps the ids one per card. */
  lemma PairsAreShuffledIntact<T>(pairs: seq<Card<T>>, cards: seq<Card<T>>, n: nat)
    requires |pairs| == n && forall i :: 0 <= i < n ==> pairs[i].id == i
    requires multiset(cards) == multiset(pairs)
    ensures forall i :: 0 <= i < |cards| ==> 0 <= cards[i].id < n && cards[i] == pairs[cards[i].id]
    ensures Ids(cards) == IdRange(n)
    ensures forall i, j :: 0 <= i < j < |cards| ==> cards[i].id != cards[j].id
  {
    assert |cards| == |multiset(cards)| == n;
    forall i | 0 <= i < |cards|
      ensures 0 <= cards[i].id < n && cards[i] == pairs[cards[i].id]
    {
      assert cards[i] in multiset(pairs);
    }
    forall id | id in IdRange(n)
      ensures id in Ids(cards)
    {
      assert pairs[id] in multiset(cards);
      var i :| 0 <= i < |cards| && cards[i] == pairs[id];
    }
    assert Distinct(pairs);
    PermutationKeepsDistinct(pairs, cards);
  }

  /** `cards.firstIndex(where: { $0.id == id })`. */
  function FirstIndex<T>(cards: seq<Card<T>>, id: int): (r: Option<nat>)
    ensures r.Some? ==> IsFirstWithId(cards, r.value, id)
    ensures r.None? ==> forall j :: 0 <= j < |cards| ==> cards[j].id != id
  {
    if |cards| == 0 then None
    else if cards[0].id == id then Some(0)
    else
      match FirstIndex(cards[1..], id)
      case Some(i) => Some(i + 1)
      case None => None
  }

  predicate IsFirstWithId<T>(cards: seq<Card<T>>, i: int, id: int)
  {
    0 <= i < |cards| && cards[i].id == id && forall j :: 0 <= j < i ==> cards[j].id != id
  }

  /** `cards.indices.filter { cards[$0].isFaceUp }`: every face-up position,
      matched cards included, in increasing order. */
  function FaceUpIndices<T>(cards: seq<Card<T>>): (r: seq<nat>)
    ensures forall k :: 0 <= k < |r| ==> r[k] < |cards| && cards[r[k]].isFaceUp
    ensures forall i :: 0 <= i < |cards| && cards[i].isFaceUp ==> i in r
    ensures forall k, l :: 0 <= k < l < |r| ==> r[k] < r[l]
    ensures |r| == Count(cards, IsFaceUp)
  {
    if |cards| == 0 then []
    else
      var n := |cards| - 1;
      var front := FaceUpIndices(cards[..n]);
      front + (if cards[n].isFaceUp then [n] else [])
  }

  /** `i` is the one and only face-up position. */
  predicate SoleFaceUp<T>(cards: seq<Card<T>>, i: int)
  {
    0 <= i < |cards| && cards[i].isFaceUp
    && forall j :: 0 <= j < |cards| && j != i ==> !cards[j].isFaceUp
  }

  /** The getter of `indexOfTheOneAndOnlyFaceUpCard`. */
  function IndexOfTheOneAndOnlyFaceUpCard<T>(cards: seq<Card<T>>): (r: Option<nat>)
    ensures forall i :: r == Some(i) <==> SoleFaceUp(cards, i)
    ensures r.Some? <==> Count(cards, IsFaceUp) == 1
  {
    var indices := FaceUpIndices(cards);
    var r := OneAndOnly(indices);
    if r.Some? then
      assert SoleFaceUp(cards, r.value);
      r
    else
      forall i ensures !SoleFaceUp(cards, i) {
        if SoleFaceUp(cards, i) {
          CountOne(cards, IsFaceUp, i);
        }
      }
      r
  }

  /** The setter of `indexOfTheOneAndOnlyFaceUpCard`: every card is
      assigned `isFaceUp = (its index == index)`, each assignment running
      the card's observer. */
  function SetIndexOfTheOneAndOnlyFaceUpCard<T>(cards: seq<Card<T>>, index: nat, now: real): (r: seq<Card<T>>)
    ensures |r| == |cards|
    ensures forall i :: 0 <= i < |r| ==> (r[i].isFaceUp <==> i == index)
    ensures forall i :: 0 <= i < |r| ==>
              && r[i].isMatched == cards[i].isMatched
              && r[i].content == cards[i].content
              && r[i].id == cards[i].id
    ensures forall i :: 0 <= i < |r| && i != index && !cards[i].isFaceUp && cards[i].lastFaceUpDate.None? ==>
              r[i] == cards[i]
    ensures forall i :: 0 <= i < |r| ==>
              && r[i].bonusTimeLimit == cards[i].bonusTimeLimit
              && FaceUpTime(r[i], now) == FaceUpTime(cards[i], now)
              && (i != index ==> r[i].lastFaceUpDate.None?)
              && (i == index ==>
                    (r[i].lastFaceUpDate
                     == (if IsConsumingBonusTime(cards[i].(isFaceUp := true), now) && cards[i].lastFaceUpDate.None?
                         then Some(now) else cards[i].lastFaceUpDate)))
  {
    seq(|cards|, i requires 0 <= i < |cards| => SetFaceUp(cards[i], i == index, now))
  }

  /** `choose(_:)`: the card is looked up by id; unknown, face-up and
      matched cards are ignored. If a lone card is face up the two are
      compared: a match scores 2 and matches both, a mismatch costs 1 when
      either card's current value already sits in `alreadySeen` and logs
      both; the chosen card then turns face up beside the other. With no
      lone face-up card, the chosen one becomes the only face-up card. */
  function Choose<T(==)>(g: Game<T>, card: Card<T>, now: real): (r: Game<T>)
    ensures |r.cards| == |g.cards|
    ensures forall i :: 0 <= i < |r.cards| ==>
              && r.cards[i].id == g.cards[i].id
              && r.cards[i].content == g.cards[i].content
              && (g.cards[i].isMatched ==> r.cards[i].isMatched)
    ensures r.score == g.score || r.score == g.score + 2 || r.score == g.score - 1
    ensures g.alreadySeen <= r.alreadySeen
  {
    match FirstIndex(g.cards, card.id)
    case None => g
    case Some(chosen) =>
      if g.cards[chosen].isFaceUp || g.cards[chosen].isMatched then g
      else
        match IndexOfTheOneAndOnlyFaceUpCard(g.cards)
        case Some(potentialMatch) =>
          if g.cards[chosen].content == g.cards[potentialMatch].content then
            var c1 := g.cards[chosen := SetMatched(g.cards[chosen], true, now)];
            var c2 := c1[potentialMatch := SetMatched(c1[potentialMatch], true, now)];
            var c3 := c2[chosen := SetFaceUp(c2[chosen], true, now)];
            Game(c3, g.score + 2, g.alreadySeen)
          else
            var penalty := if g.cards[potentialMatch] in g.alreadySeen || g.cards[chosen] in g.alreadySeen then 1 else 0;
            var seen := g.alreadySeen + [g.cards[potentialMatch], g.cards[chosen]];
            Game(g.cards[chosen := SetFaceUp(g.cards[chosen], true, now)], g.score - penalty, seen)
        case None =>
          Game(SetIndexOfTheOneAndOnlyFaceUpCard(g.cards, chosen, now), g.score, g.alreadySeen)
  }

  /** `shuffle()`: the cards reordered by the random draws `rolls`. */
  function Shuffle<T>(g: Game<T>, rolls: seq<nat>): (r: Game<T>)
    ensures multiset(r.cards) == multiset(g.cards)
    ensures r.score == g.score && r.alreadySeen == g.alreadySeen
  {
    g.(cards := Permute(g.cards, rolls))
  }
}

=== FILE: scenario.dfy ===
/** A worked play on two pairs, showing that `alreadySeen` holds snapshots
    compared by value: a card seen in an earlier mismatch no longer matches
    its logged snapshot once its accumulated face-up time has grown. */
module SeenLogScenario {
  import opened Wrappers
  import opened CardState
  import opened Seqs
  import opened MemoryGame
  import opened GameProperties

  function Letter(p: int): string
  {
    if p == 0 then "A" else "B"
  }

  /** Ids 0 and 1 show "A", ids 2 and 3 show "B"; with no draws the
      shuffle keeps that order. */
  lemma UnshuffledDeal()
    ensures Init(2, Letter, [])
            == Game([NewCard("A", 0), NewCard("A", 1), NewCard("B", 2), NewCard("B", 3)], 0, [])
  {
    var pairs := Pairs(2, Letter);
    assert pairs == [NewCard("A", 0), NewCard("A", 1), NewCard("B", 2), NewCard("B", 3)];
    PermuteWithoutDraws(pairs);
  }

  function Up(c: Card<string>, since: real): Card<string>
  {
    c.(isFaceUp := true, lastFaceUpDate := Some(since))
  }

  /** Choose id 0, then id 2 (a mismatch), then id 1, then id 2 again (a
      second mismatch involving card 2), at times 0, t, 2t and 3t. */
  function Play(t: real): Game<string>
  {
    var g0 := Init(2, Letter, []);
    var g1 := Choose(g0, NewCard("A", 0), 0.0);
    var g2 := Choose(g1, NewCard("B", 2), t);
    var g3 := Choose(g2, NewCard("A", 1), 2.0 * t);
    Choose(g3, NewCard("B", 2), 3.0 * t)
  }

  lemma AllDownNoneAlone(cards: seq<Card<string>>)
    requires forall i :: 0 <= i < |cards| ==> !cards[i].isFaceUp
    ensures forall i :: !SoleFaceUp(cards, i)
  {
  }

  /** No card is face up: the first choice becomes the only face-up card. */
  lemma FirstChoice()
    ensures var a0, a1, b2, b3 := NewCard("A", 0), NewCard("A", 1), NewCard("B", 2), NewCard("B", 3);
      Choose(Game([a0, a1, b2, b3], 0, []), a0, 0.0) == Game([Up(a0, 0.0), a1, b2, b3], 0, [])
  {
    var a0, a1, b2, b3 := NewCard("A", 0), NewCard("A", 1), NewCard("B", 2), NewCard("B", 3);
    var g0 := Game([a0, a1, b2, b3], 0, []);
    AllDownNoneAlone(g0.cards);
    ChooseWithoutLoneFaceUpCard(g0, a0, 0.0, 0);
    FirstCardUp();
  }

  /** The setter on the fresh deal turns card 0 up and leaves the rest. */
  lemma FirstCardUp()
    ensures var a0, a1, b2, b3 := NewCard("A", 0), NewCard("A", 1), NewCard("B", 2), NewCard("B", 3);
      SetIndexOfTheOneAndOnlyFaceUpCard([a0, a1, b2, b3], 0, 0.0) == [Up(a0, 0.0), a1, b2, b3]
  {
    var a0, a1, b2, b3 := NewCard("A", 0), NewCard("A", 1), NewCard("B", 2), NewCard("B", 3);
    var r := SetIndexOfTheOneAndOnlyFaceUpCard([a0, a1, b2, b3], 0, 0.0);
    TurnUpFresh("A", 0, 0.0);
    assert r[0] == SetFaceUp(a0, true, 0.0);
    assert r == [Up(a0, 0.0), a1, b2, b3];
  }

  /** A fresh card turned up starts its clock and changes nothing else. */
  lemma TurnUpFresh(content: string, id: int, now: real)
    ensures SetFaceUp(NewCard(content, id), true, now) == Up(NewCard(content, id), now)
  {
  }

  /** Card 0 is the lone face-up card and card 2 does not match it: no
      penalty yet, both logged. */
  lemma SecondChoice(t: real)
    ensures var a0, a1, b2, b3 := NewCard("A", 0), NewCard("A", 1), NewCard("B", 2), NewCard("B", 3);
      Choose(Game([Up(a0, 0.0), a1, b2, b3], 0, []), b2, t)
      == Game([Up(a0, 0.0), a1, Up(b2, t), b3], 0, [Up(a0, 0.0), b2])
  {
    var a0, a1, b2, b3 := NewCard("A", 0), NewCard("A", 1), NewCard("B", 2), NewCard("B", 3);
    var g1 := Game([Up(a0, 0.0), a1, b2, b3], 0, []);
    FirstIndexFindsFirst(g1.cards, 2, 2);
    assert SoleFaceUp(g1.cards, 0);
  }

  /** Two cards are face up: choosing card 1 turns both down, folding their
      face-up time into `pastFaceUpTime`. */
  lemma ThirdChoice(t: real)
    ensures var a0, a1, b2, b3 := NewCard("A", 0), NewCard("A", 1), NewCard("B", 2), NewCard("B", 3);
      var seen := [Up(a0, 0.0), b2];
      Choose(Game([Up(a0, 0.0), a1, Up(b2, t), b3], 0, seen), a1, 2.0 * t)
      == Game([a0.(pastFaceUpTime := 2.0 * t), Up(a1, 2.0 * t), b2.(pastFaceUpTime := 2.0 * t - t), b3], 0, seen)
  {
    var a0, a1, b2, b3 := NewCard("A", 0), NewCard("A", 1), NewCard("B", 2), NewCard("B", 3);
    var g2 := Game([Up(a0, 0.0), a1, Up(b2, t), b3], 0, [Up(a0, 0.0), b2]);
    FirstIndexFindsFirst(g2.cards, 1, 1);
    assert g2.cards[0].isFaceUp && g2.cards[2].isFaceUp;
    assert forall i :: !SoleFaceUp(g2.cards, i);
    var r := SetIndexOfTheOneAndOnlyFaceUpCard(g2.cards, 1, 2.0 * t);
    assert r[0] == SetFaceUp(Up(a0, 0.0), false, 2.0 * t) == a0.(pastFaceUpTime := 2.0 * t);
    assert r[1] == SetFaceUp(a1, true, 2.0 * t) == Up(a1, 2.0 * t);
    assert r[2] == SetFaceUp(Up(b2, t), false, 2.0 * t) == b2.(pastFaceUpTime := 2.0 * t - t);
    assert r[3] == b3;
    assert r == [a0.(pastFaceUpTime := 2.0 * t), Up(a1, 2.0 * t), b2.(pastFaceUpTime := 2.0 * t - t), b3];
  }

  /** Card 1 is alone face up and card 2 mismatches it; the penalty depends
      on whether card 2's current value equals its logged snapshot. */
  lemma FourthChoice(t: real)
    ensures var a0, a1, b2, b3 := NewCard("A", 0), NewCard("A", 1), NewCard("B", 2), NewCard("B", 3);
      var g3 := Game([a0.(pastFaceUpTime := 2.0 * t), Up(a1, 2.0 * t), b2.(pastFaceUpTime := 2.0 * t - t), b3],
                     0, [Up(a0, 0.0), b2]);
      Choose(g3, b2, 3.0 * t).score == (if t == 0.0 then -1 else 0)
  {
    var a0, a1, b2, b3 := NewCard("A", 0), NewCard("A", 1), NewCard("B", 2), NewCard("B", 3);
    var g3 := Game([a0.(pastFaceUpTime := 2.0 * t), Up(a1, 2.0 * t), b2.(pastFaceUpTime := 2.0 * t - t), b3],
                   0, [Up(a0, 0.0), b2]);
    FirstIndexFindsFirst(g3.cards, 2, 2);
    assert SoleFaceUp(g3.cards, 1);
    assert g3.cards[1] !in g3.alreadySeen;
    assert g3.cards[2] in g3.alreadySeen <==> t == 0.0;
  }

  /** The second mismatch on card 2 costs a point only if the clock stood
      still: once time has passed, card 2's face-up time differs from its
      logged snapshot, so `alreadySeen.contains` no longer finds it. */
  lemma RepeatMismatchPenalisedOnlyWithFrozenClock(t: real)
    ensures Play(t).score == (if t == 0.0 then -1 else 0)
  {
    UnshuffledDeal();
    FirstChoice();
    SecondChoice(t);
    ThirdChoice(t);
    FourthChoice(t);
  }

  /** Card 2 after earlier play in which it spent more than its whole
      6-unit bonus window. */
  function Spent(): Card<string>
  {
    NewCard("B", 2).(pastFaceUpTime := 7.0)
  }

  /** From card 0 alone face up, choose the spent card 2 at `t` (a
      mismatch), then card 1 at `u` (two cards were up, so both turn down),
      then card 2 again at `w`. */
  function PlaySpent(t: real, u: real, w: real): Game<string>
  {
    var g1 := Game([Up(NewCard("A", 0), 0.0), NewCard("A", 1), Spent(), NewCard("B", 3)], 0, []);
    var g2 := Choose(g1, Spent(), t);
    var g3 := Choose(g2, NewCard("A", 1), u);
    Choose(g3, Spent(), w)
  }

  /** The first mismatch logs the spent card as it was, face down. */
  lemma SpentSecondChoice(t: real)
    ensures var a0, a1, bx, b3 := NewCard("A", 0), NewCard("A", 1), Spent(), NewCard("B", 3);
      Choose(Game([Up(a0, 0.0), a1, bx, b3], 0, []), bx, t)
      == Game([Up(a0, 0.0), a1, bx.(isFaceUp := true), b3], 0, [Up(a0, 0.0), bx])
  {
    var a0, a1, bx, b3 := NewCard("A", 0), NewCard("A", 1), Spent(), NewCard("B", 3);
    var g1 := Game([Up(a0, 0.0), a1, bx, b3], 0, []);
    FirstIndexFindsFirst(g1.cards, 2, 2);
    assert SoleFaceUp(g1.cards, 0);
    SpentCardFlipsWithoutTiming(bx, true, t);
  }

  /** Turning the two face-up cards down returns the spent card to exactly
      its logged value. */
  lemma SpentThirdChoice(u: real)
    ensures var a0, a1, bx, b3 := NewCard("A", 0), NewCard("A", 1), Spent(), NewCard("B", 3);
      var seen := [Up(a0, 0.0), bx];
      Choose(Game([Up(a0, 0.0), a1, bx.(isFaceUp := true), b3], 0, seen), a1, u)
      == Game([a0.(pastFaceUpTime := u), Up(a1, u), bx, b3], 0, seen)
  {
    var a0, a1, bx, b3 := NewCard("A", 0), NewCard("A", 1), Spent(), NewCard("B", 3);
    var g2 := Game([Up(a0, 0.0), a1, bx.(isFaceUp := true), b3], 0, [Up(a0, 0.0), bx]);
    assert g2.cards[0].isFaceUp && g2.cards[2].isFaceUp;
    assert forall i :: !SoleFaceUp(g2.cards, i);
    ChooseWithoutLoneFaceUpCard(g2, a1, u, 1);
    var r := SetIndexOfTheOneAndOnlyFaceUpCard(g2.cards, 1, u);
    assert r[0] == SetFaceUp(Up(a0, 0.0), false, u) == a0.(pastFaceUpTime := u);
    TurnUpFresh("A", 1, u);
    assert r[1] == SetFaceUp(a1, true, u);
    SpentCardFlipsWithoutTiming(bx.(isFaceUp := true), false, u);
    assert r[2] == SetFaceUp(bx.(isFaceUp := true), false, u);
    assert r == [a0.(pastFaceUpTime := u), Up(a1, u), bx, b3];
  }

  /** The repeat mismatch finds the spent card in the log and costs a point. */
  lemma SpentFourthChoice(u: real, w: real)
    ensures var a0, a1, bx, b3 := NewCard("A", 0), NewCard("A", 1), Spent(), NewCard("B", 3);
      var g3 := Game([a0.(pastFaceUpTime := u), Up(a1, u), bx, b3], 0, [Up(a0, 0.0), bx]);
      Choose(g3, bx, w).score == -1
  {
    var a0, a1, bx, b3 := NewCard("A", 0), NewCard("A", 1), Spent(), NewCard("B", 3);
    var g3 := Game([a0.(pastFaceUpTime := u), Up(a1, u), bx, b3], 0, [Up(a0, 0.0), bx]);
    FirstIndexFindsFirst(g3.cards, 2, 2);
    assert SoleFaceUp(g3.cards, 1);
    assert g3.cards[2] in g3.alreadySeen;
  }

  /** A card whose bonus window is used up no longer changes its timing
      fields, so a repeat mismatch on it is penalised at whatever times the
      choices are made, with the clock running. */
  lemma SpentCardRepeatMismatchPenalised(t: real, u: real, w: real)
    ensures PlaySpent(t, u, w).score == -1
  {
    SpentSecondChoice(t);
    SpentThirdChoice(u);
    SpentFourthChoice(u, w);
  }

  /** A snapshot also records `isFaceUp`: the spent card, logged face down
      as the chosen card, is not found when it is later the lone face-up
      card, so that mismatch costs nothing at any time. */
  lemma SpentCardNotFoundInOtherRole(w: real)
    ensures var a0, a1, bx, b3 := NewCard("A", 0), NewCard("A", 1), Spent(), NewCard("B", 3);
      Choose(Game([a0, a1, bx.(isFaceUp := true), b3], 0, [Up(a0, 0.0), bx]), a0, w).score == 0
  {
    var a0, a1, bx, b3 := NewCard("A", 0), NewCard("A", 1), Spent(), NewCard("B", 3);
    var g := Game([a0, a1, bx.(isFaceUp := true), b3], 0, [Up(a0, 0.0), bx]);
    FirstIndexFindsFirst(g.cards, 0, 0);
    assert SoleFaceUp(g.cards, 2);
    assert g.cards[2] !in g.alreadySeen && g.cards[0] !in g.alreadySeen;
  }
}

=== FILE: seqs.dfy ===
/** Sequence helpers the engine and the session rely on: Swift's
    `Array.oneAndOnly`, counting, distinctness, and a model of the
    random reordering done by `shuffle()` / `shuffled()`. */
module Seqs {
  import opened Wrappers

  /** `Array.oneAndOnly`: the element of a one-element array, nil otherwise. */
  function OneAndOnly<X>(s: seq<X>): (r: Option<X>)
    ensures r.Some? <==> |s| == 1
    ensures r.Some? ==> s == [r.value]
  {
    if |s| == 1 then Some(s[0]) else None
  }

  /** Number of elements of `s` that satisfy `p`. */
  function Count<X>(s: seq<X>, p: X -> bool): nat
  {
    if |s| == 0 then 0
    else Count(s[..|s| - 1], p) + (if p(s[|s| - 1]) then 1 else 0)
  }

  lemma {:induction false} CountAppend<X>(a: seq<X>, b: seq<X>, p: X -> bool)
    ensures Count(a + b, p) == Count(a, p) + Count(b, p)
    decreases |b|
  {
    if |b| == 0 {
      assert a + b == a;
    } else {
      assert (a + b)[..|a + b| - 1] == a + b[..|b| - 1];
      CountAppend(a, b[..|b| - 1], p);
    }
  }

  /** A count depends only on the multiset of elements, not on their order. */
  lemma {:induction false} CountPermutation<X>(s: seq<X>, t: seq<X>, p: X -> bool)
    requires multiset(s) == multiset(t)
    ensures Count(s, p) == Count(t, p)
    decreases |s|
  {
    if |s| == 0 {
      assert |t| == |multiset(t)| == 0;
    } else {
      var x := s[0];
      assert x in multiset(t);
      var k :| 0 <= k < |t| && t[k] == x;
      var rest := t[..k] + t[k + 1..];
      assert t == t[..k] + [x] + t[k + 1..];
      assert s == [x] + s[1..];
      assert multiset(t) == multiset(t[..k]) + multiset{x} + multiset(t[k + 1..]);
      assert multiset(s) == multiset{x} + multiset(s[1..]);
      assert multiset(rest) == multiset(t[..k]) + multiset(t[k + 1..]);
      MultisetCancel(multiset(s[1..]), multiset(rest), x);
      CountPermutation(s[1..], rest, p);
      CountAppend([x], s[1..], p);
      CountAppend(t[..k], [x], p);
      CountAppend(t[..k] + [x], t[k + 1..], p);
      CountAppend(t[..k], t[k + 1..], p);
      assert Count([x], p) == (if p(x) then 1 else 0) by {
        assert [x][..0] == [];
      }
    }
  }

  lemma MultisetCancel<X>(a: multiset<X>, b: multiset<X>, x: X)
    requires multiset{x} + a == multiset{x} + b
    ensures a == b
  {
    forall y ensures a[y] == b[y] {
      assert (multiset{x} + a)[y] == (multiset{x} + b)[y];
    }
  }

  /** Replacing one element changes the count by that element's contribution only. */
  lemma {:induction false} CountUpdate<X>(s: seq<X>, i: nat, x: X, p: X -> bool)
    requires i < |s|
    ensures Count(s[i := x], p)
            == Count(s, p) - (if p(s[i]) then 1 else 0) + (if p(x) then 1 else 0)
    decreases |s|
  {
    var n := |s|;
    if i == n - 1 {
      assert s[i := x][..n - 1] == s[..n - 1];
    } else {
      assert s[i := x][..n - 1] == s[..n - 1][i := x];
      CountUpdate(s[..n - 1], i, x, p);
    }
  }

  /** The count is zero exactly when no element satisfies `p`. */
  lemma {:induction false} CountZero<X>(s: seq<X>, p: X -> bool)
    ensures Count(s, p) == 0 <==> forall i :: 0 <= i < |s| ==> !p(s[i])
    decreases |s|
  {
    if |s| > 0 {
      var n := |s|;
      CountZero(s[..n - 1], p);
      assert forall i :: 0 <= i < n - 1 ==> s[..n - 1][i] == s[i];
    }
  }

  /** The count is one when exactly one position satisfies `p`. */
  lemma {:induction false} CountOne<X>(s: seq<X>, p: X -> bool, i: nat)
    requires i < |s| && p(s[i])
    requires forall j :: 0 <= j < |s| && j != i ==> !p(s[j])
    ensures Count(s, p) == 1
  {
    CountZero(s[i := s[i]][..i], p);
    assert s == s[..i] + [s[i]] + s[i + 1..];
    CountAppend(s[..i] + [s[i]], s[i + 1..], p);
    CountAppend(s[..i], [s[i]], p);
    CountZero(s[..i], p);
    CountZero(s[i + 1..], p);
    assert [s[i]][..0] == [];
  }

  predicate Distinct<X(==)>(s: seq<X>)
  {
    forall i, j :: 0 <= i < j < |s| ==> s[i] != s[j]
  }

  /** Rolls left after one draw. */
  function Tail(rolls: seq<nat>): seq<nat>
  {
    if |rolls| == 0 then [] else rolls[1..]
  }

  /** A random reordering driven by the random draws `rolls`: the first
      element is the one at `rolls[0] % |s|`, the rest is a reordering of
      what remains; missing draws count as 0. Every `rolls` yields a
      permutation (see `PermuteReachesEveryOrder` for the converse). */
  function Permute<X>(s: seq<X>, rolls: seq<nat>): (r: seq<X>)
    ensures |r| == |s|
    ensures multiset(r) == multiset(s)
    decreases |s|
  {
    if |s| == 0 then []
    else
      var k := if |rolls| == 0 then 0 else rolls[0] % |s|;
      var rest := s[..k] + s[k + 1..];
      MultisetSplitAt(s, k);
      [s[k]] + Permute(rest, Tail(rolls))
  }

  /** Moving the element at `k` to the front keeps the multiset. */
  lemma MultisetSplitAt<X>(s: seq<X>, k: nat)
    requires k < |s|
    ensures multiset([s[k]] + (s[..k] + s[k + 1..])) == multiset(s)
  {
    assert s == s[..k] + [s[k]] + s[k + 1..];
  }

  /** Removing the element at `k` removes one occurrence from the multiset. */
  lemma MultisetRemoveAt<X>(s: seq<X>, k: nat)
    requires k < |s|
    ensures multiset(s[..k] + s[k + 1..]) == multiset(s) - multiset{s[k]}
  {
    assert s == s[..k] + [s[k]] + s[k + 1..];
    assert multiset(s) == multiset(s[..k]) + multiset{s[k]} + multiset(s[k + 1..]);
  }

  lemma SmallModulus(k: nat, n: nat)
    requires k < n
    ensures k % n == k
  {
  }

  /** Taking the same element out of two equal multisets leaves equal multisets. */
  lemma RemoveMatchingHeads<X>(s: seq<X>, t: seq<X>, k: nat)
    requires multiset(s) == multiset(t)
    requires k < |s| && 0 < |t| && s[k] == t[0]
    ensures multiset(s[..k] + s[k + 1..]) == multiset(t[1..])
  {
    MultisetRemoveAt(s, k);
    assert t == [t[0]] + t[1..];
    assert multiset(t) == multiset{t[0]} + multiset(t[1..]);
  }

  /** With no draws, the reordering keeps the original order. */
  lemma {:induction false} PermuteWithoutDraws<X>(s: seq<X>)
    ensures Permute(s, []) == s
    decreases |s|
  {
    if |s| > 0 {
      assert s[..0] + s[1..] == s[1..];
      PermuteWithoutDraws(s[1..]);
    }
  }

  /** Every reordering of `s` is produced by some sequence of draws. */
  lemma {:induction false} PermuteReachesEveryOrder<X>(s: seq<X>, t: seq<X>) returns (rolls: seq<nat>)
    requires multiset(s) == multiset(t)
    ensures Permute(s, rolls) == t
    decreases |s|
  {
    SameLength(s, t);
    if |s| == 0 {
      rolls := [];
    } else {
      var k := FindHead(s, t);
      var more := PermuteReachesEveryOrder(s[..k] + s[k + 1..], t[1..]);
      rolls := [k] + more;
      PermuteFirstDraw(s, k, more);
      assert t == [t[0]] + t[1..];
    }
  }

  lemma SameLength<X>(s: seq<X>, t: seq<X>)
    requires multiset(s) == multiset(t)
    ensures |s| == |t|
  {
    assert |s| == |multiset(s)| && |t| == |multiset(t)|;
  }

  /** A position of `s` holding the head of its reordering `t`. */
  lemma FindHead<X>(s: seq<X>, t: seq<X>) returns (k: nat)
    requires multiset(s) == multiset(t) && 0 < |s| == |t|
    ensures k < |s| && s[k] == t[0]
    ensures multiset(s[..k] + s[k + 1..]) == multiset(t[1..])
  {
    assert t[0] in multiset(s);
    k :| 0 <= k < |s| && s[k] == t[0];
    RemoveMatchingHeads(s, t, k);
  }

  /** A first draw below the length picks exactly that element. */
  lemma PermuteFirstDraw<X>(s: seq<X>, k: nat, more: seq<nat>)
    requires k < |s|
    ensures Permute(s, [k] + more) == [s[k]] + Permute(s[..k] + s[k + 1..], more)
  {
    SmallModulus(k, |s|);
    assert Tail([k] + more) == more;
  }

  /** Removing one element of a distinct sequence leaves a distinct
      sequence that no longer holds that element. */
  lemma RemoveAtDistinct<X>(s: seq<X>, k: nat)
    requires Distinct(s) && k < |s|
    ensures Distinct(s[..k] + s[k + 1..])
    ensures s[k] !in s[..k] + s[k + 1..]
  {
    var rest := s[..k] + s[k + 1..];
    forall i | 0 <= i < |rest|
      ensures rest[i] == s[if i < k then i else i + 1]
    {
    }
  }

  /** Reordering a sequence of distinct elements keeps them distinct. */
  lemma {:induction false} PermutePreservesDistinct<X>(s: seq<X>, rolls: seq<nat>)
    requires Distinct(s)
    ensures Distinct(Permute(s, rolls))
    decreases |s|
  {
    if |s| > 0 {
      var k := if |rolls| == 0 then 0 else rolls[0] % |s|;
      var rest := s[..k] + s[k + 1..];
      RemoveAtDistinct(s, k);
      PermutePreservesDistinct(rest, Tail(rolls));
      var tail := Permute(rest, Tail(rolls));
      assert s[k] !in multiset(rest);
      assert s[k] !in tail;
      ConsDistinct(s[k], tail);
    }
  }

  /** Any reordering of a sequence without repeats has none either. */
  lemma PermutationKeepsDistinct<X>(s: seq<X>, t: seq<X>)
    requires Distinct(s) && multiset(s) == multiset(t)
    ensures Distinct(t)
  {
    var rolls := PermuteReachesEveryOrder(s, t);
    PermutePreservesDistinct(s, rolls);
  }

  lemma ConsDistinct<X>(x: X, tail: seq<X>)
    requires Distinct(tail) && x !in tail
    ensures Distinct([x] + tail)
  {
    var r := [x] + tail;
    forall i, j | 0 <= i < j < |r| ensures r[i] != r[j] {
      assert r[j] == tail[j - 1];
      if i > 0 {
        assert r[i] == tail[i - 1];
      }
    }
  }
}

=== FILE: wrappers.dfy ===
/** The optional value Swift writes `T?`. */
module Wrappers {

  datatype Option<+T> = None | Some(value: T)

}
